=== FILE: README.md ===
# mwcma poison allocator and RawPtr handle, modelled in Dafny

This project models the use-after-free defence of the `mwcma` component of
BlazingMQ. It has two parts.

- `mwcma::PoisonAllocator` wraps an upstream memory resource. `do_allocate`
  asks upstream for `sizeof(int) + bytes`. It returns the address one `int`
  past the start of the storage, and that `int` is the block's reference count.
  `do_deallocate` reads the count one `int` before the payload. If the count is
  above one, it decrements it and keeps the block: the block is quarantined. If
  not, it fills the payload with `0xcf` and gives the whole extent back
  upstream: the block is released.
- `mwcma::RawPtr<T>` is declared as a replacement for `T*` that works with
  the allocator. Its definitions are a stub that does not compile. It is
  modelled only as a reference holder: every handle that names a block adds one
  to that block's count. Acquiring a reference adds one and giving it up takes
  one away. This is the handle's intent, not code that exists.

Files:

- `memory.dfy`: bytes, addresses, `sizeof(int)`, the poison byte, and
  `memset` as `Fill`.
- `layout.dfy`: where the header sits, the payload/storage round trip, and
  the alignment finding, and the `size_t` width of the request size.
- `upstream.dfy`: the upstream resource. It is abstract: it holds the extents
  handed out and a log of calls. Its consistency (`Replay`) says the
  allocate/deallocate calls are balanced and matched.
- `poison_allocator.dfy`: the allocator's state, its constructors,
  `get_allocator`, `do_allocate`, `do_deallocate` and the destructor.
- `raw_ptr.dfy`: handles and the count-bookkeeping invariant `Tracks`.
- `scenarios.dfy`: the test driver's cases and a two-handle use case.

The state is kept in pure functions over immutable values. Functions cannot
change their argument, so `get_allocator` (a `const` observer) leaves every
block and header as it was.

Two variants of the allocator are modelled, `Layout.Variant`:

- `AsWritten` is the code. The header is exactly one `int`. The count starts
  at 0, because that is what the layout diagram at
  `mwcma_poisonallocator.cpp:49-51` shows. The code never writes the header
  itself, so this initial value comes from the diagram.
- `Corrected` fixes the first two findings below. The header is padded to the
  requested alignment, and the count starts at 1 for the owner's own reference.

Both variants use the same state machine. The allocator's lemmas and the
handle operations' contracts are proved for both. The lemmas that name a
variant are stated for that variant only:

- `RawPtr.CorrectedDeallocateQuarantinesIffReferenced`,
  `RawPtr.CorrectedCountsNonNegative` and
  `RawPtr.PendingReleasePayloadSurvives` hold for `Corrected`.
- `RawPtr.AsWrittenSingleHandleReleases` and
  `RawPtr.AsWrittenCountGoesNegative` show where `AsWritten` departs from
  them.

The source's constructors build `AsWritten`. `PoisonAllocator.Construct`
builds either variant.

The source states its intent in two comments. The comment at
`mwcma_poisonallocator.cpp:63-64` says that a block whose count is not zero
is quarantined. `mwcma_rawptr.h:23` says that the handle works with the
allocator to prevent use-after-free. The model follows the code, which does
less:

- The header holds only the count. Nothing in it records that the owner has
  deallocated the block. The model keeps that fact outside the header, in
  the allocator's `quarantined` set, so that it can state the caller
  contract of `deallocate`.
- The quarantine test is `count > 1`.
- The code never sets the count at allocation; the model uses the diagram's 0.
- Nothing ever releases a quarantined block later. Neither the allocator nor
  the handle gives it back upstream, even when the last handle goes away.

The test driver expects `allocate(0)` to return null
(`mwcma_poisonallocator.t.cpp:49-50`). `do_allocate` as written never returns
null: for every request that does not wrap, it asks upstream for at least
the header and returns
storage + `sizeof(int)`. `Scenarios.ZeroByteAllocationIsNotNull` states what
the code does. The test's expectation is recorded here as a discrepancy, not
proved.

## Model

| member | source | states |
|---|---|---|
| `Memory.Fill` | src/groups/mwc/mwcma/mwcma_poisonallocator.cpp:74 | `memset` over the payload: same length, and every byte is `0xcf` |
| `Layout.ExtentHoldsHeaderAndPayload` | src/groups/mwc/mwcma/mwcma_poisonallocator.cpp:54-56 | header and payload exactly fill the extent asked of upstream: the payload ends where the extent ends |
| `Layout.WrappingRequestSize` | src/groups/mwc/mwcma/mwcma_poisonallocator.cpp:54 | as written, `sizeof(int) + bytes` is computed in `size_t`: it is exact up to `SIZE_MAX - sizeof(int)` and wraps modulo `SIZE_MAX + 1` above |
| `Layout.AsWrittenRequestWraps` | src/groups/mwc/mwcma/mwcma_poisonallocator.cpp:54-56 | for requests within `sizeof(int)` of `SIZE_MAX`, the wrapped size is smaller than the header, so the returned address already lies past the extent |
| `Layout.CheckedRequestCoversPayload` | src/groups/mwc/mwcma/mwcma_poisonallocator.cpp:54-56 | the checked size is refused exactly when header plus payload overflow `size_t`; otherwise it agrees with the wrapping sum and the extent holds header and payload |
| `Layout.PayloadAddress` | src/groups/mwc/mwcma/mwcma_poisonallocator.cpp:45-56 | the returned address steps back to the exact upstream storage; the count's `int` lies inside the storage, immediately before the payload; as written, the count's `int` is the first `int` of the storage |
| `Layout.PayloadStorageRoundTrip` | src/groups/mwc/mwcma/mwcma_poisonallocator.cpp:76 | the other direction of the round trip: stepping from a payload back to its storage and forward again gives the same payload |
| `Layout.AsWrittenMisaligns` | src/groups/mwc/mwcma/mwcma_poisonallocator.cpp:54-56 | for any alignment above `sizeof(int)`, the returned address is off by exactly `sizeof(int)` from the alignment upstream honoured |
| `Layout.CorrectedPayloadAligned` | src/groups/mwc/mwcma/mwcma_poisonallocator.cpp:54-56 | with the header padded to the alignment, the returned address keeps every power-of-two alignment upstream honoured |
| `Upstream.ReplayBalances` | src/groups/mwc/mwcma/mwcma_poisonallocator.cpp:76-78 | in a consistent call log, each address is given back at most as often as it was handed out, and exactly as often unless it is live now |
| `PoisonAllocator.Default` | src/groups/mwc/mwcma/mwcma_poisonallocator.cpp:35-38 | a default-constructed allocator draws from exactly the installed default resource and holds no blocks |
| `PoisonAllocator.FromAllocator` | src/groups/mwc/mwcma/mwcma_poisonallocator.cpp:40-43 | constructed from an allocator, `get_allocator` gives back exactly that upstream, and the allocator holds no blocks |
| `PoisonAllocator.GetAllocator` | src/groups/mwc/mwcma/mwcma_poisonallocator.h:88-91 | gives the identity of the resource the allocator draws from; `FromAllocator` fixes it to the given allocator, and `Step` and `Run` keep it for the allocator's whole life |
| `PoisonAllocator.Construct` | src/groups/mwc/mwcma/mwcma_poisonallocator.h:55-56 | either variant starts with no blocks, over the given upstream, with a consistent state |
| `PoisonAllocator.Allocate` | src/groups/mwc/mwcma/mwcma_poisonallocator.cpp:45-57 | exhaustion is propagated and only then; for a request whose header and payload fit in `size_t`, upstream gets exactly one allocation call for that size (as written, equal to the `size_t` sum) and alignment; the result is non-null, fresh, and steps back to the granted storage; the new header holds the starting count (0, from the layout diagram, as written) and every other block is unchanged |
| `PoisonAllocator.Deallocate` | src/groups/mwc/mwcma/mwcma_poisonallocator.cpp:59-79 | only a block not yet deallocated is accepted; count above one: the count drops by exactly one, payload and upstream are untouched, and the block stays held, now quarantined; otherwise the block is dropped and upstream gets exactly one deallocation call, with the size and alignment allocate asked for, the header left as it was, and every payload byte `0xcf` |
| `PoisonAllocator.SetCount` | src/groups/mwc/mwcma/mwcma_poisonallocator.cpp:69 | writing a header count changes that one count and nothing else, and keeps every block backed |
| `PoisonAllocator.AllocateDeallocateRoundTrip` | src/groups/mwc/mwcma/mwcma_poisonallocator.cpp:45-79 | allocate followed at once by deallocate releases the block: upstream sees the matched allocation and deallocation pair with the payload all `0xcf`, and blocks and live extents are as before |
| `PoisonAllocator.HeldBlocksAreOutstanding` | src/groups/mwc/mwcma/mwcma_poisonallocator.cpp:67-71 | every held block, quarantined ones included, has been handed out exactly once more than it was given back |
| `PoisonAllocator.DeallocateReturnsAtMostOnce` | src/groups/mwc/mwcma/mwcma_poisonallocator.cpp:67-78 | release returns the storage exactly once and balances its allocation; quarantine makes no return |
| `PoisonAllocator.Destroy` | src/groups/mwc/mwcma/mwcma_poisonallocator.h:84-86 | the empty destructor leaves the upstream resource as it was: no call is made and no extent is given back |
| `PoisonAllocator.Step` | src/groups/mwc/mwcma/mwcma_poisonallocator.cpp:45-79 | any allocate or deallocate that keeps the caller contract keeps the allocator valid and keeps its upstream; it only appends to the upstream's call log, and every quarantined block stays quarantined with its header and payload as they were |
| `PoisonAllocator.Run` | src/groups/mwc/mwcma/mwcma_poisonallocator.cpp:45-79 | over any sequence of calls that keep the caller contract, the allocator stays valid and draws from the same resource, and the upstream's call log only grows; a block once quarantined stays held, unchanged, for the rest of the run |
| `PoisonAllocator.SecondDeallocateRejected` | src/groups/mwc/mwcma/mwcma_poisonallocator.cpp:59-71 | after a deallocation that quarantines a block, deallocating it again breaks the caller contract, so a run that does so stops there |
| `PoisonAllocator.DestroyLeavesBlocksOutstanding` | src/groups/mwc/mwcma/mwcma_poisonallocator.h:84-86 | destruction makes no upstream call, and every held block, live or quarantined, stays handed out |
| `RawPtr.Deref` | src/groups/mwc/mwcma/mwcma_rawptr.h:47-50 | (modelled intent) `operator*` and `operator->` give exactly the address the handle names, the one a raw pointer would hold; `Adopt`, `Copy` and `Move` state which address that is |
| `RawPtr.Allocate` | src/groups/mwc/mwcma/mwcma_poisonallocator.cpp:45-57 | a fresh block is named by no handle, and the bookkeeping invariant is kept |
| `RawPtr.Default` | src/groups/mwc/mwcma/mwcma_rawptr.h:39 | (modelled intent) a default-constructed handle names nothing: no block's reference total or count changes, and nothing else in the world does |
| `RawPtr.Adopt` | src/groups/mwc/mwcma/mwcma_rawptr.h:23 | (modelled intent) a new handle is made only for a block its owner still holds; it dereferences to that block's address and adds exactly one to its count; only counts change |
| `RawPtr.Copy` | src/groups/mwc/mwcma/mwcma_rawptr.h:62-64 | (modelled intent) the copy names the same object as the original and adds one to that block's count; no other count, payload, block or upstream state changes |
| `RawPtr.CopyAssign` | src/groups/mwc/mwcma/mwcma_rawptr.h:66-68 | (modelled intent) the destination names what the source names; the source's block gains one count and the destination's old block loses one; only counts change |
| `RawPtr.Move` | src/groups/mwc/mwcma/mwcma_rawptr.h:70-72 | (modelled intent) the new handle names what the source named; the source is left empty; no count changes |
| `RawPtr.MoveAssign` | src/groups/mwc/mwcma/mwcma_rawptr.h:74-76 | (modelled intent) the destination names what the source named; the source is left empty; the destination's old block loses one count and only counts change; self-move changes nothing |
| `RawPtr.Drop` | src/groups/mwc/mwcma/mwcma_rawptr.h:60 | (modelled intent) the handle's block loses exactly one count; only counts change, so no block is released or modified and upstream is not called |
| `RawPtr.Deallocate` | src/groups/mwc/mwcma/mwcma_poisonallocator.cpp:67-71 | the owner's deallocate quarantines exactly when the starting count plus the handles naming the block exceed one; the invariant is kept unless a handle would be left naming a released block |
| `RawPtr.CorrectedDeallocateQuarantinesIffReferenced` | src/groups/mwc/mwcma/mwcma_poisonallocator.cpp:67-71 | with the corrected starting count, deallocate quarantines exactly when some handle names the block; payload and upstream are then untouched, and no handle dangles |
| `RawPtr.AsWrittenSingleHandleReleases` | src/groups/mwc/mwcma/mwcma_poisonallocator.cpp:67-78 | as written, a block named by exactly one handle is poisoned and given back upstream while the handle still names it |
| `RawPtr.AsWrittenCountGoesNegative` | src/groups/mwc/mwcma/mwcma_poisonallocator.cpp:67-71 | as written, two handles make deallocation quarantine at count 1, and dropping both leaves the count at -1 |
| `RawPtr.ApplyOp` | src/groups/mwc/mwcma/mwcma_rawptr.h:39-44 | (modelled intent) every handle operation keeps the bookkeeping invariant and changes only header counts |
| `RawPtr.RunHandles` | src/groups/mwc/mwcma/mwcma_rawptr.h:39-44 | (modelled intent) any run of handle operations keeps the invariant and changes only header counts: no block is released, modified or given back upstream |
| `RawPtr.PendingReleasePayloadSurvives` | src/groups/mwc/mwcma/mwcma_poisonallocator.cpp:67-71 | with the corrected starting count, a block a handle names is quarantined by deallocation; after any run of handle operations it is still held with its original payload, and upstream is untouched |
| `RawPtr.CorrectedCountsNonNegative` | src/groups/mwc/mwcma/mwcma_poisonallocator.cpp:65-71 | with the corrected starting count, a count is never below the number of handles naming the block, and is at least one while the owner holds it |
| `Scenarios.Allocate256` | src/groups/mwc/mwcma/mwcma_poisonallocator.t.cpp:48-55 | from any state of an allocator as written, the test's after its zero-byte allocation included, the 256-byte buffer is non-null, can be deallocated, and its release restores upstream's live extents; at the default alignment of 16 it sits 4 bytes off |
| `Scenarios.ZeroByteAllocationIsNotNull` | src/groups/mwc/mwcma/mwcma_poisonallocator.t.cpp:49-50 | a granted zero-byte request still asks upstream for `sizeof(int)` and returns a non-null address, contrary to the test's expectation |
| `Scenarios.AsWrittenHandleDangles` | src/groups/mwc/mwcma/mwcma_rawptr.h:23 | the test's buffer named by one handle is released by its owner's deallocate while the handle still dereferences to it |
| `Scenarios.TwoHandleScenario` | src/groups/mwc/mwcma/mwcma_poisonallocator.cpp:67-71 | corrected layout, 64 bytes at alignment 8, two handles, deallocate: the block is quarantined, both handles read the original bytes, and after both are dropped it is still held with count 0 and upstream was never called |

## Left out

- Atomicity of the count (`atomic<int>&` at `mwcma_poisonallocator.cpp:65`) is left out. Its point is concurrency, so the count is a plain sequential integer. The declaration as written binds an `atomic<int>&` to an `int*` and would not compile; it is read as "the count at that address".
- Layout.RequestSize: the state machine computes `sizeof(int) + bytes` without bound. The code computes it in `size_t`, and it wraps for `bytes` above `SIZE_MAX - sizeof(int)` (see Findings). Allocation with such a wrapped request is not modelled: `PoisonAllocator.GrantFits`, which `PoisonAllocator.Allocate` requires, admits only requests whose header and payload fit in `size_t`. For every request that does not overflow, the unbounded sum equals both the wrapping sum and the checked one (`Layout.CheckedRequestCoversPayload`).
- Upstream internals are left out. `bslma` is not part of this model. Upstream is reduced to its promises: extents are non-null, aligned and disjoint, and deallocation must match an earlier allocation. Its answers, including the indeterminate initial payload bytes, are parameters.
- The default alignment of `bsl::memory_resource::allocate` is taken as 16 (`Memory.MaxAlign`). It comes from `bslma`, which is not part of this model.
- The installed default resource is process-wide state, so it is a parameter of `PoisonAllocator.Default`.
- The logging category (`mwcma_poisonallocator.cpp:26-30`) is left out: it has no effect on behaviour.
- Test-harness scaffolding and the `uses_allocator` trait assertions (`mwcma_poisonallocator.t.cpp:27-34, 58-65`) are left out: they are compile-time checks and harness setup.
- The deleted copy and move operations of `PoisonAllocator` (`mwcma_poisonallocator.h:70-75`) have nothing to state in a value model. The model offers no copy of an allocator and threads a single state through every operation.
- `RawPtr`'s default constructor is `RawPtr.Default`, which adds an `Empty` handle. The `const` and non-`const` overloads of `operator*` and `operator->` are one `Deref`. The source declares no constructor from a raw pointer. `RawPtr.Adopt` is a model addition so that handles naming a block can exist. It refuses a block its owner has already deallocated, because making a new reference after deallocation breaks the caller contract.
- A moved-from handle is left empty. The move bodies in the source are empty, so this is a modelling choice.
- Nothing releases a quarantined block later. The model does not add such a step, because the code has none.
- Deallocating a block twice breaks the caller contract (`PoisonAllocator.Owns`). The code cannot tell, and would decrement the count again or release the block. The model does not step past such a call (`PoisonAllocator.SecondDeallocateRejected`).
- Scenarios.Allocate256: passes 256 as the size to `deallocate`. The test calls `alloc.deallocate(buffer)` with no size, but `do_deallocate` takes one. How a missing size is filled in belongs to `bslma`, which is not part of this model.
- The Rust bridge (`src/rust/bmq-rs/...`) and the Python schema re-exports are left out. They are thin wrappers over an external SDK and generated names, and the bridge's flag mapping depends on bit layouts that are not part of this model.

## Findings

| source | as written | input that shows it | evidently intended | confidence | as-written member | corrected member |
|---|---|---|---|---|---|---|
| src/groups/mwc/mwcma/mwcma_poisonallocator.cpp:54-56 | the returned address is storage + `sizeof(int)`, whatever alignment was requested | `allocate(256)` at the default alignment 16, with upstream storage at 4096: the payload is at 4100, which is 4 mod 16 | pad the header to the requested alignment, so that the payload keeps it | high for any alignment above 4; not executed | `Layout.AsWrittenMisaligns` | `Layout.CorrectedPayloadAligned` |
| src/groups/mwc/mwcma/mwcma_poisonallocator.cpp:63-71 | the count starts at 0 (layout diagram), and quarantine needs a count above 1, although the comment at lines 63-64 says any non-zero count quarantines | allocate 256 bytes, take one handle (count 1), deallocate: the payload is poisoned and returned upstream while the handle still names it | count the owner's reference, so the count starts at 1 and any live handle quarantines the block | high, from the comment at lines 63-64; not executed | `RawPtr.AsWrittenSingleHandleReleases` | `RawPtr.CorrectedDeallocateQuarantinesIffReferenced` |
| src/groups/mwc/mwcma/mwcma_poisonallocator.cpp:54 | `sizeof(int) + bytes` is computed in `size_t` with no overflow check | `allocate(SIZE_MAX - 1)`: upstream is asked for 2 bytes, the returned address is storage + 4 (past the extent), and deallocation `memset`s `SIZE_MAX - 1` bytes | refuse requests whose header plus payload do not fit in `size_t` | high; not executed | `Layout.AsWrittenRequestWraps` | `Layout.CheckedRequestCoversPayload` |

=== FILE: layout.dfy ===
/**
  Where the reference-count header sits relative to the storage the upstream
  resource supplies and to the payload address handed to the caller.

  `do_allocate` places one `int` at the start of the upstream storage and
  returns the address just past it; `do_deallocate` steps back one `int` from
  the payload to find both the count and the storage to give back.

  Two variants are modelled. `AsWritten` is the code: a header of exactly
  `sizeof(int)` and, since the code never writes the header, the count the
  layout diagram shows (zero). `Corrected` is the layout the design evidently
  intends: the header is padded to the requested alignment so the payload
  keeps that alignment, and the count starts at one for the owner's own
  reference, so that the `count > 1` test means "someone besides the owner".
 */
module Layout {
  import opened Memory
  import opened Wrappers

  datatype Variant = AsWritten | Corrected

  /** Bytes between the upstream storage and the payload. */
  function HeaderOffset(v: Variant, alignment: nat): (n: nat)
    ensures n >= IntSize
    ensures v == AsWritten ==> n == IntSize
    ensures v == Corrected ==> n >= alignment
  {
    match v
    case AsWritten => IntSize
    case Corrected => if alignment <= IntSize then IntSize else alignment
  }

  /** The count a fresh block's header holds. */
  function InitialCount(v: Variant): (c: int)
  {
    match v
    case AsWritten => 0
    case Corrected => 1
  }

  /** How many bytes are asked of the upstream resource for a payload of `bytes`. */
  function RequestSize(v: Variant, bytes: nat, alignment: nat): (n: nat)
    ensures n >= IntSize + bytes
    ensures v == AsWritten ==> n == IntSize + bytes
  {
    HeaderOffset(v, alignment) + bytes
  }

  /** The address of the `int` holding the count: one `int` before the payload. */
  function HeaderAddress(address: Addr): (h: Addr)
    requires address >= IntSize
  {
    address - IntSize
  }

  /** The address returned to the caller for upstream storage `storage`. The
      count sits in the last `int` before it, still inside the storage, and
      stepping back gives the storage again. */
  function PayloadAddress(v: Variant, storage: Addr, alignment: nat): (p: Addr)
    ensures p >= HeaderOffset(v, alignment)
    ensures StorageOf(v, p, alignment) == storage
    ensures storage <= HeaderAddress(p) && HeaderAddress(p) + IntSize == p
    ensures v == AsWritten ==> HeaderAddress(p) == storage
  {
    storage + HeaderOffset(v, alignment)
  }

  /** The upstream storage behind a payload address: the pointer the release
      path hands back to the upstream resource. */
  function StorageOf(v: Variant, address: Addr, alignment: nat): (s: Addr)
    requires address >= HeaderOffset(v, alignment)
    ensures s + HeaderOffset(v, alignment) == address
    ensures v == AsWritten ==> s == HeaderAddress(address)
  {
    address - HeaderOffset(v, alignment)
  }

  /** Header and payload exactly fill the extent asked of the upstream
      resource: the payload's end is the extent's end. */
  lemma ExtentHoldsHeaderAndPayload(v: Variant, storage: Addr, bytes: nat, alignment: nat)
    ensures PayloadAddress(v, storage, alignment) + bytes == storage + RequestSize(v, bytes, alignment)
  {
  }

  /** The other direction of the address round trip: going back to the storage
      behind a payload and forward again gives the same payload address. */
  lemma PayloadStorageRoundTrip(v: Variant, address: Addr, alignment: nat)
    requires address >= HeaderOffset(v, alignment)
    ensures PayloadAddress(v, StorageOf(v, address, alignment), alignment) == address
  {
  }

  /** As written, `sizeof(int) + bytes` is computed in `size_t`, so it wraps
      for requests within `sizeof(int)` of `SIZE_MAX`. */
  function WrappingRequestSize(bytes: nat): (n: nat)
    requires bytes <= SizeMax
    ensures n <= SizeMax
    ensures bytes <= SizeMax - IntSize ==> n == IntSize + bytes
    ensures bytes > SizeMax - IntSize ==> n + SizeMax + 1 == IntSize + bytes
  {
    var n := (IntSize + bytes) % (SizeMax + 1);
    if bytes <= SizeMax - IntSize then
      RemainderOf(IntSize + bytes, 0, SizeMax + 1, IntSize + bytes);
      n
    else
      RemainderOf(IntSize + bytes, 1, SizeMax + 1, IntSize + bytes - (SizeMax + 1));
      n
  }

  /** A wrapped request is smaller than the header itself: the returned
      address already lies past the end of the extent, and the poisoning
      `memset` of `bytes` bytes runs far beyond it. */
  lemma AsWrittenRequestWraps(storage: Addr, bytes: nat, alignment: nat)
    requires SizeMax - IntSize < bytes <= SizeMax
    ensures WrappingRequestSize(bytes) < IntSize
    ensures storage + WrappingRequestSize(bytes) < PayloadAddress(AsWritten, storage, alignment)
  {
  }

  /** The request size with the overflow check the evident intent needs: the
      request is refused when header plus payload do not fit in `size_t`. */
  function CheckedRequestSize(v: Variant, bytes: nat, alignment: nat): (r: Option<nat>)
  {
    if RequestSize(v, bytes, alignment) <= SizeMax then Some(RequestSize(v, bytes, alignment)) else None
  }

  /** The checked size is refused exactly when header plus payload cannot be
      represented; otherwise it is representable, agrees with the wrapping
      computation, and the extent holds header and payload. */
  lemma CheckedRequestCoversPayload(v: Variant, storage: Addr, bytes: nat, alignment: nat)
    requires bytes <= SizeMax
    ensures CheckedRequestSize(v, bytes, alignment).None? <==> HeaderOffset(v, alignment) + bytes > SizeMax
    ensures CheckedRequestSize(v, bytes, alignment).Some? ==>
      && CheckedRequestSize(v, bytes, alignment).value <= SizeMax
      && PayloadAddress(v, storage, alignment) + bytes == storage + CheckedRequestSize(v, bytes, alignment).value
      && (v == AsWritten ==> CheckedRequestSize(v, bytes, alignment).value == WrappingRequestSize(bytes))
  {
  }

  /** Every power of two no greater than `sizeof(int)` divides it. */
  lemma {:induction false} SmallPowerOfTwoDividesIntSize(alignment: nat)
    requires IsPowerOfTwo(alignment) && alignment <= IntSize
    ensures IntSize % alignment == 0
  {
    if alignment != 1 {
      assert alignment / 2 <= 2 && IsPowerOfTwo(alignment / 2);
      if alignment / 2 != 1 {
        assert IsPowerOfTwo(alignment / 4);
        assert alignment / 4 == 1;
      }
    }
  }

  /** Euclidean remainder is unique: `q * a + r` leaves remainder `r`. */
  lemma RemainderOf(n: int, q: int, a: int, r: int)
    requires a > 0 && 0 <= r < a && n == q * a + r
    ensures n % a == r
  {
    var q', r' := n / a, n % a;
    assert n == q' * a + r';
    var d := q - q';
    assert d * a == r' - r by {
      assert q * a - q' * a == (q - q') * a;
    }
    assert d * a == a + (d - 1) * a && d * a == -a + (d + 1) * a;
    assert d >= 1 ==> (d - 1) * a >= 0;
    assert d <= -1 ==> (d + 1) * a <= 0;
  }

  /** As written, a payload is `sizeof(int)` past storage that the upstream
      aligned to `alignment`; for any alignment above `sizeof(int)` it is
      therefore misaligned by exactly `sizeof(int)`. */
  lemma AsWrittenMisaligns(storage: Addr, alignment: nat)
    requires alignment > IntSize && storage % alignment == 0
    ensures PayloadAddress(AsWritten, storage, alignment) % alignment == IntSize
  {
    var k := storage / alignment;
    assert storage == k * alignment;
    RemainderOf(storage + IntSize, k, alignment, IntSize);
  }

  /** The corrected layout keeps whatever alignment the upstream gave the storage. */
  lemma CorrectedPayloadAligned(storage: Addr, alignment: nat)
    requires IsPowerOfTwo(alignment) && storage % alignment == 0
    ensures PayloadAddress(Corrected, storage, alignment) % alignment == 0
  {
    var k := storage / alignment;
    assert storage == k * alignment;
    if alignment <= IntSize {
      SmallPowerOfTwoDividesIntSize(alignment);
      var j := IntSize / alignment;
      assert IntSize == j * alignment;
      assert storage + IntSize == (k + j) * alignment;
      RemainderOf(storage + IntSize, k + j, alignment, 0);
    } else {
      assert storage + alignment == (k + 1) * alignment;
      RemainderOf(storage + alignment, k + 1, alignment, 0);
    }
  }
}

=== FILE: memory.dfy ===
/**
  Machine-level vocabulary shared by the allocator and the handle type:
  addresses, bytes, the size of the in-band header and the poison pattern.
 */
module Memory {

  /** An unsigned 8-bit value, the unit `bsl::memset` writes. */
  newtype byte = x: int | 0 <= x < 256

  /** A byte address; address 0 is the null pointer. */
  type Addr = nat

  const Null: Addr := 0

  /** `sizeof(int)`: the width of the reference-count header. */
  const IntSize: nat := 4

  /** The value every payload byte is overwritten with on release. */
  const PoisonByte: byte := 0xcf

  /** The largest `size_t` on a 64-bit platform; `size_t` arithmetic wraps
      modulo `SizeMax + 1`. */
  const SizeMax: nat := 0xFFFF_FFFF_FFFF_FFFF

  /** The platform's maximum fundamental alignment, the default alignment of
      `bsl::memory_resource::allocate`. */
  const MaxAlign: nat := 16

  /** Alignments a memory resource accepts are powers of two. */
  predicate IsPowerOfTwo(n: nat)
    decreases n
  {
    n == 1 || (n >= 2 && n % 2 == 0 && IsPowerOfTwo(n / 2))
  }

  /** `bsl::memset(region, value, |region|)`: every byte of the region becomes `value`. */
  function Fill(region: seq<byte>, value: byte): (r: seq<byte>)
    ensures |r| == |region|
    ensures forall i :: 0 <= i < |r| ==> r[i] == value
  {
    seq(|region|, _ => value)
  }
}

=== FILE: poison_allocator.dfy ===
/**
  `mwcma::PoisonAllocator`: a memory resource that keeps a reference count in
  an `int` just before every payload and, on deallocation, either quarantines
  the block (count above one: decrement and keep it) or poisons the payload
  with 0xcf and gives the whole extent back to the upstream resource.

  The allocator's state is its upstream resource (`d_allocator`) and a view of
  the blocks it has handed out and not yet released, keyed by payload address:
  the header count and the payload bytes of each, and which of them their
  owner has already deallocated (quarantined ones). Deallocating a block
  twice breaks the caller contract of `deallocate`, so a quarantined block is
  never deallocated again; and nothing else releases it: it stays here for
  good.
 */
module PoisonAllocator {
  import opened Memory
  import opened Layout
  import opened Wrappers
  import Upstream

  /** One block handed out: the `int` header, the payload, and the alignment
      it was requested with. */
  datatype Block = Block(count: int, payload: seq<byte>, alignment: nat)

  datatype Allocator = Allocator(variant: Variant, upstream: Upstream.Resource, blocks: map<Addr, Block>, quarantined: set<Addr>)

  /** The outcome of `do_allocate`: the new state and the payload address, or
      the upstream's exhaustion propagated to the caller. */
  datatype Allocation = Allocated(next: Allocator, address: Addr) | OutOfMemory

  /** The extent asked of the upstream resource for block `b`. */
  function ExtentOf(v: Variant, b: Block): (e: Upstream.Extent)
  {
    Upstream.Extent(RequestSize(v, |b.payload|, b.alignment), b.alignment)
  }

  /** Block `p` is backed by a live upstream extent of exactly the size and
      alignment its allocation asked for. */
  predicate Backed(a: Allocator, p: Addr)
    requires p in a.blocks
  {
    var b := a.blocks[p];
    && IsPowerOfTwo(b.alignment)
    && p >= HeaderOffset(a.variant, b.alignment)
    && StorageOf(a.variant, p, b.alignment) in a.upstream.live
    && a.upstream.live[StorageOf(a.variant, p, b.alignment)] == ExtentOf(a.variant, b)
  }

  predicate Valid(a: Allocator)
  {
    && Upstream.Consistent(a.upstream)
    && a.quarantined <= a.blocks.Keys
    && forall p | p in a.blocks :: Backed(a, p)
  }

  /** The general constructor: no blocks yet, all storage from `upstream`. */
  function Construct(v: Variant, upstream: Upstream.Resource): (a: Allocator)
    requires Upstream.Consistent(upstream)
    ensures Valid(a)
    ensures a.variant == v && a.upstream == upstream && a.blocks == map[] && a.quarantined == {}
  {
    Allocator(v, upstream, map[], {})
  }

  /** `PoisonAllocator()`: storage comes from the currently installed default
      resource, which is process-wide state and so a parameter here. */
  function Default(installed: Upstream.Resource): (a: Allocator)
    requires Upstream.Consistent(installed)
    ensures Valid(a) && a.variant == AsWritten
    ensures GetAllocator(a) == installed.id && a.upstream == installed && a.blocks == map[]
  {
    Construct(AsWritten, installed)
  }

  /** `PoisonAllocator(alloc)`: storage comes from `alloc`. */
  function FromAllocator(alloc: Upstream.Resource): (a: Allocator)
    requires Upstream.Consistent(alloc)
    ensures Valid(a) && a.variant == AsWritten
    ensures GetAllocator(a) == alloc.id && a.upstream == alloc && a.blocks == map[]
  {
    Construct(AsWritten, alloc)
  }

  /** `get_allocator()`: the upstream resource this allocator draws from. */
  function GetAllocator(a: Allocator): (id: Upstream.ResourceId)
    ensures id == a.upstream.id
  {
    a.upstream.id
  }

  /** A request whose header and payload fit in `size_t`, and what the
      upstream resource must have answered for it: exhaustion, or storage that
      fits and a payload of the requested length. */
  predicate GrantFits(a: Allocator, g: Upstream.Grant, bytes: nat, alignment: nat)
  {
    && RequestSize(a.variant, bytes, alignment) <= SizeMax
    && (g.Granted? ==>
          && |g.contents| == bytes
          && Upstream.Fits(a.upstream, g.storage, RequestSize(a.variant, bytes, alignment), alignment))
  }

  /** A payload address placed in granted storage is not already in use. */
  lemma FreshPayload(a: Allocator, g: Upstream.Grant, bytes: nat, alignment: nat)
    requires Valid(a) && g.Granted? && GrantFits(a, g, bytes, alignment)
    ensures PayloadAddress(a.variant, g.storage, alignment) !in a.blocks
  {
    var p := PayloadAddress(a.variant, g.storage, alignment);
    forall q | q in a.blocks
      ensures q != p
    {
      assert Backed(a, q);
      assert StorageOf(a.variant, q, a.blocks[q].alignment) in a.upstream.live;
    }
  }

  /** `do_allocate(bytes, alignment)`. */
  function Allocate(a: Allocator, bytes: nat, alignment: nat, g: Upstream.Grant): (r: Allocation)
    requires Valid(a) && IsPowerOfTwo(alignment) && GrantFits(a, g, bytes, alignment)
    ensures g.Exhausted? <==> r.OutOfMemory?
    ensures r.Allocated? ==>
      && Valid(r.next)
      && r.next.variant == a.variant
      && GetAllocator(r.next) == GetAllocator(a)
      && r.address != Null
      && r.address !in a.blocks
      && r.address >= HeaderOffset(a.variant, alignment)
      && StorageOf(a.variant, r.address, alignment) == g.storage
      && r.next.upstream.live == a.upstream.live[g.storage := Upstream.Extent(RequestSize(a.variant, bytes, alignment), alignment)]
      && r.next.upstream.calls == a.upstream.calls + [Upstream.AllocateCall(g.storage, Upstream.Extent(RequestSize(a.variant, bytes, alignment), alignment))]
      && r.next.blocks == a.blocks[r.address := Block(InitialCount(a.variant), g.contents, alignment)]
      && r.next.quarantined == a.quarantined
    ensures r.Allocated? && a.variant == AsWritten ==>
      && r.address == g.storage + IntSize
      && RequestSize(a.variant, bytes, alignment) == IntSize + bytes
      && RequestSize(a.variant, bytes, alignment) == WrappingRequestSize(bytes)
      && r.next.blocks[r.address].count == 0
  {
    match g
    case Exhausted => OutOfMemory
    case Granted(storage, contents) =>
      var extent := Upstream.Extent(RequestSize(a.variant, bytes, alignment), alignment);
      var address := PayloadAddress(a.variant, storage, alignment);
      FreshPayload(a, g, bytes, alignment);
      var next := Allocator(a.variant, Upstream.Allocate(a.upstream, storage, extent),
                            a.blocks[address := Block(InitialCount(a.variant), contents, alignment)], a.quarantined);
      assert Backed(next, address);
      assert forall p | p in next.blocks :: Backed(next, p) by {
        forall p | p in next.blocks
          ensures Backed(next, p)
        {
          if p != address {
            assert Backed(a, p);
          }
        }
      }
      Allocated(next, address)
  }

  /** The caller contract of `do_deallocate`: `address`, `bytes` and `alignment`
      are exactly those of a block this allocator handed out and its owner has
      not deallocated yet. */
  predicate Owns(a: Allocator, address: Addr, bytes: nat, alignment: nat)
  {
    && address in a.blocks
    && address !in a.quarantined
    && |a.blocks[address].payload| == bytes
    && a.blocks[address].alignment == alignment
  }

  /** Overwrites the header count of block `p`; nothing else changes. */
  function SetCount(a: Allocator, p: Addr, count: int): (r: Allocator)
    requires Valid(a) && p in a.blocks
    ensures Valid(r) && r.variant == a.variant && r.upstream == a.upstream && r.quarantined == a.quarantined
    ensures r.blocks == a.blocks[p := a.blocks[p].(count := count)]
  {
    var next := a.(blocks := a.blocks[p := a.blocks[p].(count := count)]);
    assert forall q | q in next.blocks :: Backed(next, q) by {
      forall q | q in next.blocks
        ensures Backed(next, q)
      {
        assert Backed(a, q);
      }
    }
    next
  }

  /** `do_deallocate(address, bytes, alignment)`. */
  function Deallocate(a: Allocator, address: Addr, bytes: nat, alignment: nat): (r: Allocator)
    requires Valid(a) && Owns(a, address, bytes, alignment)
    ensures Valid(r) && r.variant == a.variant && GetAllocator(r) == GetAllocator(a)
    // Quarantine: one reference fewer, payload untouched, no upstream call.
    ensures a.blocks[address].count > 1 ==>
      && r.blocks == a.blocks[address := a.blocks[address].(count := a.blocks[address].count - 1)]
      && r.quarantined == a.quarantined + {address}
      && r.upstream == a.upstream
    // Release: payload poisoned, header left as it was, the extent handed back
    // exactly as it was requested.
    ensures a.blocks[address].count <= 1 ==>
      var storage := StorageOf(a.variant, address, alignment);
      && r.blocks == a.blocks - {address}
      && r.quarantined == a.quarantined
      && r.upstream.live == a.upstream.live - {storage}
      && r.upstream.calls == a.upstream.calls +
           [Upstream.DeallocateCall(storage, Upstream.Extent(RequestSize(a.variant, bytes, alignment), alignment),
                                    a.blocks[address].count, Fill(a.blocks[address].payload, PoisonByte))]
  {
    var b := a.blocks[address];
    if b.count > 1 then
      var counted := SetCount(a, address, b.count - 1);
      var next := counted.(quarantined := a.quarantined + {address});
      assert forall p | p in next.blocks :: Backed(next, p) by {
        forall p | p in next.blocks
          ensures Backed(next, p)
        {
          assert Backed(counted, p);
        }
      }
      next
    else
      var storage := StorageOf(a.variant, address, alignment);
      assert Backed(a, address);
      var upstream := Upstream.Deallocate(a.upstream, storage, ExtentOf(a.variant, b), b.count, Fill(b.payload, PoisonByte));
      var next := Allocator(a.variant, upstream, a.blocks - {address}, a.quarantined);
      assert forall p | p in next.blocks :: Backed(next, p) by {
        forall p | p in next.blocks
          ensures Backed(next, p)
        {
          assert Backed(a, p);
          var s := StorageOf(a.variant, p, a.blocks[p].alignment);
          assert s != storage;
        }
      }
      next
  }

  /** `~PoisonAllocator()`: an empty body. The upstream resource is left
      exactly as it was. */
  function Destroy(a: Allocator): (upstream: Upstream.Resource)
    ensures upstream.id == a.upstream.id
    ensures upstream.calls == a.upstream.calls && upstream.live == a.upstream.live
  {
    a.upstream
  }

  /** Allocating and at once deallocating (no references taken) releases the
      block: the upstream resource gets back exactly the pointer, size and
      alignment it handed out, with every payload byte poisoned, and both the
      allocator and the upstream's set of live extents are as before. */
  lemma AllocateDeallocateRoundTrip(a: Allocator, bytes: nat, alignment: nat, g: Upstream.Grant)
    requires Valid(a) && IsPowerOfTwo(alignment) && g.Granted? && GrantFits(a, g, bytes, alignment)
    ensures Allocate(a, bytes, alignment, g).Allocated?
    ensures var r := Allocate(a, bytes, alignment, g);
      && Owns(r.next, r.address, bytes, alignment)
      && var d := Deallocate(r.next, r.address, bytes, alignment);
      var e := Upstream.Extent(RequestSize(a.variant, bytes, alignment), alignment);
      && d.blocks == a.blocks
      && d.upstream.live == a.upstream.live
      && d.upstream.calls == a.upstream.calls +
           [Upstream.AllocateCall(g.storage, e),
            Upstream.DeallocateCall(g.storage, e, InitialCount(a.variant), Fill(g.contents, PoisonByte))]
  {
    var r := Allocate(a, bytes, alignment, g);
    var d := Deallocate(r.next, r.address, bytes, alignment);
    assert d.blocks == a.blocks;
    assert d.upstream.live == a.upstream.live;
  }

  /** Every block the allocator holds, quarantined ones included, has been
      handed out by the upstream resource exactly once more than it was given
      back. */
  lemma HeldBlocksAreOutstanding(a: Allocator, p: Addr)
    requires Valid(a) && p in a.blocks
    ensures var s := StorageOf(a.variant, p, a.blocks[p].alignment);
      Upstream.Returns(a.upstream.calls, s) + 1 == Upstream.Grants(a.upstream.calls, s)
  {
    assert Backed(a, p);
    Upstream.ReplayBalances(a.upstream.calls, StorageOf(a.variant, p, a.blocks[p].alignment));
  }

  /** Deallocation gives a block back to the upstream resource at most once:
      the release branch makes exactly one return of the block's storage, which
      balances the one allocation of it; the quarantine branch makes none. */
  lemma DeallocateReturnsAtMostOnce(a: Allocator, address: Addr, bytes: nat, alignment: nat)
    requires Valid(a) && Owns(a, address, bytes, alignment)
    ensures var s := StorageOf(a.variant, address, alignment);
      var r := Deallocate(a, address, bytes, alignment);
      && Upstream.Returns(r.upstream.calls, s) == Upstream.Returns(a.upstream.calls, s) + (if address in r.blocks then 0 else 1)
      && Upstream.Returns(r.upstream.calls, s) + (if address in r.blocks then 1 else 0) == Upstream.Grants(r.upstream.calls, s)
  {
    var s := StorageOf(a.variant, address, alignment);
    var r := Deallocate(a, address, bytes, alignment);
    HeldBlocksAreOutstanding(a, address);
    Upstream.ReplayBalances(r.upstream.calls, s);
    if address !in r.blocks {
      var calls := r.upstream.calls;
      assert calls[..|calls| - 1] == a.upstream.calls;
    }
  }

  /** Destroying the allocator neither poisons nor returns anything: every
      block it still holds, live or quarantined, stays handed out upstream. */
  lemma DestroyLeavesBlocksOutstanding(a: Allocator)
    requires Valid(a)
    ensures Destroy(a).calls == a.upstream.calls
    ensures forall p | p in a.blocks :: StorageOf(a.variant, p, a.blocks[p].alignment) in Destroy(a).live
  {
    forall p | p in a.blocks
      ensures StorageOf(a.variant, p, a.blocks[p].alignment) in Destroy(a).live
    {
      assert Backed(a, p);
    }
  }

  /** One call a client makes on the allocator. */
  datatype Request =
    | AllocateRequest(bytes: nat, alignment: nat, grant: Upstream.Grant)
    | DeallocateRequest(address: Addr, bytes: nat, alignment: nat)

  /** The call keeps the caller contract of `allocate` or `deallocate`. */
  predicate Admissible(a: Allocator, q: Request)
  {
    && Valid(a)
    && match q
       case AllocateRequest(bytes, alignment, g) => IsPowerOfTwo(alignment) && GrantFits(a, g, bytes, alignment)
       case DeallocateRequest(address, bytes, alignment) => Owns(a, address, bytes, alignment)
  }

  /** Every block quarantined in `before` is still quarantined in `after`,
      held with its header and payload exactly as they were. */
  predicate QuarantineKept(before: Allocator, after: Allocator)
  {
    && before.quarantined <= after.quarantined
    && forall p | p in before.quarantined ::
         p in before.blocks && p in after.blocks && after.blocks[p] == before.blocks[p]
  }

  /** One call; an exhausted allocation leaves the allocator as it was. */
  function Step(a: Allocator, q: Request): (r: Allocator)
    requires Admissible(a, q)
    ensures Valid(r) && r.variant == a.variant && GetAllocator(r) == GetAllocator(a)
    ensures |a.upstream.calls| <= |r.upstream.calls| && r.upstream.calls[..|a.upstream.calls|] == a.upstream.calls
    ensures QuarantineKept(a, r)
  {
    match q
    case AllocateRequest(bytes, alignment, g) =>
      (match Allocate(a, bytes, alignment, g)
       case OutOfMemory => a
       case Allocated(next, _) => next)
    case DeallocateRequest(address, bytes, alignment) => Deallocate(a, address, bytes, alignment)
  }

  /** A sequence of calls over the allocator's lifetime, `None` as soon as one
      of them breaks the caller contract. Whatever the calls, the allocator
      stays valid, keeps drawing from the resource it was constructed with,
      and the upstream's call log only grows. */
  function Run(a: Allocator, qs: seq<Request>): (r: Option<Allocator>)
    requires Valid(a)
    ensures r.Some? ==> Valid(r.value) && r.value.variant == a.variant
    ensures r.Some? ==> GetAllocator(r.value) == GetAllocator(a)
    ensures r.Some? ==>
      |a.upstream.calls| <= |r.value.upstream.calls| && r.value.upstream.calls[..|a.upstream.calls|] == a.upstream.calls
    ensures r.Some? ==> QuarantineKept(a, r.value)
    decreases |qs|
  {
    if qs == [] then Some(a)
    else if Admissible(a, qs[0]) then
      var r := Run(Step(a, qs[0]), qs[1..]);
      assert r.Some? ==> r.value.upstream.calls[..|a.upstream.calls|] == Step(a, qs[0]).upstream.calls[..|a.upstream.calls|];
      r
    else None
  }

  /** A second deallocation of a quarantined block breaks the caller
      contract: a run that deallocates the same block twice stops there. */
  lemma SecondDeallocateRejected(a: Allocator, address: Addr, bytes: nat, alignment: nat)
    requires Valid(a) && Owns(a, address, bytes, alignment) && a.blocks[address].count > 1
    ensures var q := DeallocateRequest(address, bytes, alignment);
      && Admissible(a, q)
      && !Admissible(Step(a, q), q)
      && Run(a, [q, q]).None?
  {
    var q := DeallocateRequest(address, bytes, alignment);
    assert [q, q][1..] == [q];
  }
}

=== FILE: raw_ptr.dfy ===
/**
  `mwcma::RawPtr<T>`, the handle meant to replace `T*` and to collaborate with
  PoisonAllocator against use-after-free. Its member definitions are a stub
  that does not compile, so this module models the handle's INTENT only: a
  handle is a reference holder naming one block by its payload address, and
  every handle that names a block accounts for one unit of that block's
  header count. Acquiring a reference adds one, giving it up (destruction,
  being overwritten by assignment) takes one away. Giving up a reference never
  releases a block: nothing in the code releases a quarantined block.

  A `World` puts the allocator, which knows the blocks their owner has
  already deallocated (quarantined ones), together with the handles in
  existence.
 */
module RawPtr {
  import opened Memory
  import opened Layout
  import PA = PoisonAllocator
  import Upstream
  import opened Wrappers

  /** A handle: empty, or naming the block whose payload is at `address`. */
  datatype Handle = Empty | Names(address: Addr)

  /** `operator*` and `operator->`: the object the handle names, which is the
      address a raw pointer would hold. */
  function Deref(h: Handle): (p: Addr)
    requires h.Names?
    ensures Names(p) == h
  {
    h.address
  }

  /** How many handles name the block at `p`. */
  function References(handles: seq<Handle>, p: Addr): (n: nat)
  {
    multiset(handles)[Names(p)]
  }

  datatype World = World(heap: PA.Allocator, handles: seq<Handle>)

  /** The count block `p` should hold: its starting count, one per handle
      naming it, and one fewer once its owner has deallocated it. */
  function Expected(w: World, p: Addr): (c: int)
  {
    InitialCount(w.heap.variant) + References(w.handles, p) - (if p in w.heap.quarantined then 1 else 0)
  }

  /** The handle bookkeeping invariant: every header count is what the handles
      and the owner account for, and no handle names a block that is gone. */
  predicate Tracks(w: World)
  {
    && PA.Valid(w.heap)
    && (forall h | h in w.handles && h.Names? :: h.address in w.heap.blocks)
    && (forall p | p in w.heap.blocks :: w.heap.blocks[p].count == Expected(w, p))
  }

  /** Handle operations only move header counts: the variant, the upstream,
      the set of blocks, which of them are quarantined, and every block's
      payload and alignment stay as they were. */
  predicate OnlyCountsChange(before: PA.Allocator, after: PA.Allocator)
  {
    && after.variant == before.variant
    && after.upstream == before.upstream
    && after.blocks.Keys == before.blocks.Keys
    && after.quarantined == before.quarantined
    && forall p | p in after.blocks :: after.blocks[p] == before.blocks[p].(count := after.blocks[p].count)
  }

  /** A world with no blocks and no handles. */
  function Start(heap: PA.Allocator): (w: World)
    requires PA.Valid(heap) && heap.blocks == map[]
    ensures Tracks(w) && w.heap == heap && w.handles == []
  {
    World(heap, [])
  }

  /** Adds `delta` to the count of the block `h` names, if any. */
  function Adjust(heap: PA.Allocator, h: Handle, delta: int): (r: PA.Allocator)
    requires PA.Valid(heap) && (h.Names? ==> h.address in heap.blocks)
    ensures PA.Valid(r) && r.variant == heap.variant && r.upstream == heap.upstream
    ensures r.blocks.Keys == heap.blocks.Keys && r.quarantined == heap.quarantined
    ensures forall p | p in r.blocks ::
      r.blocks[p] == heap.blocks[p].(count := heap.blocks[p].count + (if h == Names(p) then delta else 0))
  {
    if h.Names? then PA.SetCount(heap, h.address, heap.blocks[h.address].count + delta) else heap
  }

  /** The owner allocates a block; handles are untouched. */
  function Allocate(w: World, bytes: nat, alignment: nat, g: Upstream.Grant): (r: World)
    requires Tracks(w) && IsPowerOfTwo(alignment) && PA.GrantFits(w.heap, g, bytes, alignment)
    ensures Tracks(r) && r.handles == w.handles && r.heap.quarantined == w.heap.quarantined
    ensures r.heap == (match PA.Allocate(w.heap, bytes, alignment, g)
                       case OutOfMemory => w.heap
                       case Allocated(next, _) => next)
  {
    match PA.Allocate(w.heap, bytes, alignment, g)
    case OutOfMemory => w
    case Allocated(next, p) =>
      assert Names(p) !in w.handles;
      World(next, w.handles)
  }

  /** `RawPtr()`: a new handle that names nothing; no count changes. */
  function Default(w: World): (r: World)
    requires Tracks(w)
    ensures Tracks(r)
    ensures r.handles == w.handles + [Empty] && r.heap == w.heap && r.heap.quarantined == w.heap.quarantined
    ensures forall p :: References(r.handles, p) == References(w.handles, p)
  {
    World(w.heap, w.handles + [Empty])
  }

  /** A handle is made to name the live block at `p`. The source declares no
      constructor from a raw pointer; this is how the model lets a handle come
      into being. Its owner must not have deallocated the block yet. */
  function Adopt(w: World, p: Addr): (r: World)
    requires Tracks(w) && p in w.heap.blocks && p !in w.heap.quarantined
    ensures Tracks(r) && OnlyCountsChange(w.heap, r.heap) && r.heap.quarantined == w.heap.quarantined
    ensures r.handles == w.handles + [Names(p)] && Deref(r.handles[|w.handles|]) == p
    ensures forall q | q in r.heap.blocks ::
      r.heap.blocks[q].count == w.heap.blocks[q].count + (if q == p then 1 else 0)
  {
    World(Adjust(w.heap, Names(p), 1), w.handles + [Names(p)])
  }

  /** `RawPtr(const RawPtr& other)`: a second handle naming the same block,
      holding one more reference to it. */
  function Copy(w: World, i: nat): (r: World)
    requires Tracks(w) && i < |w.handles|
    ensures Tracks(r)
    ensures r.handles == w.handles + [w.handles[i]]
    ensures w.handles[i].Names? ==>
      && Deref(r.handles[|w.handles|]) == Deref(w.handles[i])
    ensures OnlyCountsChange(w.heap, r.heap) && r.heap.quarantined == w.heap.quarantined
    ensures forall p | p in r.heap.blocks ::
      r.heap.blocks[p].count == w.heap.blocks[p].count + (if w.handles[i] == Names(p) then 1 else 0)
  {
    World(Adjust(w.heap, w.handles[i], 1), w.handles + [w.handles[i]])
  }

  /** `operator=(const RawPtr& other)`: handle `dst` now names what `src`
      names; the reference `dst` held is given up, the new one acquired. */
  function CopyAssign(w: World, dst: nat, src: nat): (r: World)
    requires Tracks(w) && dst < |w.handles| && src < |w.handles|
    ensures Tracks(r)
    ensures r.handles == w.handles[dst := w.handles[src]]
    ensures OnlyCountsChange(w.heap, r.heap) && r.heap.quarantined == w.heap.quarantined
    ensures forall p | p in r.heap.blocks ::
      r.heap.blocks[p].count == w.heap.blocks[p].count
        + (if w.handles[src] == Names(p) then 1 else 0) - (if w.handles[dst] == Names(p) then 1 else 0)
  {
    var heap := Adjust(Adjust(w.heap, w.handles[src], 1), w.handles[dst], -1);
    var r := World(heap, w.handles[dst := w.handles[src]]);
    CopyAssignTracks(w, dst, src, r);
    r
  }

  /** Overwriting one handle swaps exactly it in the multiset of handles. */
  lemma ReplaceOne(handles: seq<Handle>, i: nat, x: Handle)
    requires i < |handles|
    ensures multiset(handles[i := x]) == multiset(handles) - multiset{handles[i]} + multiset{x}
  {
    assert handles == handles[..i] + [handles[i]] + handles[i + 1..];
    assert handles[i := x] == handles[..i] + [x] + handles[i + 1..];
  }

  lemma CopyAssignTracks(w: World, dst: nat, src: nat, r: World)
    requires Tracks(w) && dst < |w.handles| && src < |w.handles|
    requires r == World(Adjust(Adjust(w.heap, w.handles[src], 1), w.handles[dst], -1),
                        w.handles[dst := w.handles[src]])
    ensures Tracks(r)
  {
    var x := w.handles[src];
    var y := w.handles[dst];
    ReplaceOne(w.handles, dst, x);
    forall h | h in r.handles && h.Names?
      ensures h.address in r.heap.blocks
    {
      assert h in multiset(r.handles);
    }
    var mid := Adjust(w.heap, x, 1);
    forall p | p in r.heap.blocks
      ensures r.heap.blocks[p].count == Expected(r, p)
    {
      var d := (if x == Names(p) then 1 else 0) - (if y == Names(p) then 1 else 0);
      assert References(r.handles, p) == References(w.handles, p) + d;
      assert w.heap.blocks[p].count == Expected(w, p);
      assert mid.blocks[p].count == w.heap.blocks[p].count + (if x == Names(p) then 1 else 0);
      assert r.heap.blocks[p].count == mid.blocks[p].count - (if y == Names(p) then 1 else 0);
    }
  }

  /** `RawPtr(MovableRef<RawPtr> other)`: a new handle takes over what handle
      `i` named, and handle `i` is left empty; no count changes. */
  function Move(w: World, i: nat): (r: World)
    requires Tracks(w) && i < |w.handles|
    ensures Tracks(r)
    ensures r.handles == w.handles[i := Empty] + [w.handles[i]]
    ensures r.heap == w.heap && r.heap.quarantined == w.heap.quarantined
  {
    World(w.heap, w.handles[i := Empty] + [w.handles[i]])
  }

  /** `operator=(MovableRef<RawPtr> other)`: `dst` takes over what `src`
      named and `src` is left empty; the reference `dst` held is given up.
      Moving a handle onto itself changes nothing. */
  function MoveAssign(w: World, dst: nat, src: nat): (r: World)
    requires Tracks(w) && dst < |w.handles| && src < |w.handles|
    ensures Tracks(r)
    ensures dst != src ==> r.handles == w.handles[dst := w.handles[src]][src := Empty]
    ensures dst == src ==> r == w
    ensures OnlyCountsChange(w.heap, r.heap) && r.heap.quarantined == w.heap.quarantined
    ensures dst != src ==> forall p | p in r.heap.blocks ::
      r.heap.blocks[p].count == w.heap.blocks[p].count - (if w.handles[dst] == Names(p) then 1 else 0)
  {
    if dst == src then w
    else World(Adjust(w.heap, w.handles[dst], -1), w.handles[dst := w.handles[src]][src := Empty])
  }

  /** `~RawPtr()`: handle `i` ceases to exist and gives up its reference. The
      source's destructor body is empty; giving the reference back is the
      modelled intent. The block is never released here, whatever its count. */
  function Drop(w: World, i: nat): (r: World)
    requires Tracks(w) && i < |w.handles|
    ensures Tracks(r)
    ensures r.handles == w.handles[..i] + w.handles[i + 1..]
    ensures OnlyCountsChange(w.heap, r.heap) && r.heap.quarantined == w.heap.quarantined
    ensures forall p | p in r.heap.blocks ::
      r.heap.blocks[p].count == w.heap.blocks[p].count - (if w.handles[i] == Names(p) then 1 else 0)
  {
    var rest := w.handles[..i] + w.handles[i + 1..];
    var r := World(Adjust(w.heap, w.handles[i], -1), rest);
    DropTracks(w, i, r);
    r
  }

  /** Removing one handle removes exactly it from the multiset of handles. */
  lemma RemoveOne(handles: seq<Handle>, i: nat)
    requires i < |handles|
    ensures multiset(handles[..i] + handles[i + 1..]) == multiset(handles) - multiset{handles[i]}
  {
    assert handles == handles[..i] + [handles[i]] + handles[i + 1..];
  }

  lemma DropTracks(w: World, i: nat, r: World)
    requires Tracks(w) && i < |w.handles|
    requires r == World(Adjust(w.heap, w.handles[i], -1), w.handles[..i] + w.handles[i + 1..])
    ensures Tracks(r)
  {
    var rest := r.handles;
    RemoveOne(w.handles, i);
    forall h | h in rest
      ensures h in w.handles
    {
      assert h in multiset(rest);
    }
    forall p | p in r.heap.blocks
      ensures r.heap.blocks[p].count == Expected(r, p)
    {
      var d := if w.handles[i] == Names(p) then 1 else 0;
      assert References(rest, p) == References(w.handles, p) - d;
      assert w.heap.blocks[p].count == Expected(w, p);
      assert r.heap.blocks[p].count == w.heap.blocks[p].count - d;
      assert Expected(r, p) == Expected(w, p) - d;
    }
  }

  /** The owner deallocates block `p` through the allocator. The block is
      quarantined exactly when its count is above one, that is when the
      starting count and the handles naming it add up to more than one. */
  function Deallocate(w: World, p: Addr): (r: World)
    requires Tracks(w) && p in w.heap.blocks && p !in w.heap.quarantined
    ensures r.handles == w.handles
    ensures r.heap.quarantined == (if p in r.heap.blocks then w.heap.quarantined + {p} else w.heap.quarantined)
    ensures p in r.heap.blocks <==> InitialCount(w.heap.variant) + References(w.handles, p) > 1
    ensures r.heap == PA.Deallocate(w.heap, p, |w.heap.blocks[p].payload|, w.heap.blocks[p].alignment)
    ensures References(w.handles, p) == 0 || InitialCount(w.heap.variant) + References(w.handles, p) > 1 ==> Tracks(r)
  {
    var b := w.heap.blocks[p];
    var heap := PA.Deallocate(w.heap, p, |b.payload|, b.alignment);
    if b.count > 1 then World(heap, w.handles)
    else
      assert References(w.handles, p) == 0 ==> Names(p) !in w.handles;
      World(heap, w.handles)
  }

  /** Reads payload byte `k` through handle `i`. */
  function Load(w: World, i: nat, k: nat): (b: byte)
    requires Tracks(w) && i < |w.handles| && w.handles[i].Names?
    requires k < |w.heap.blocks[Deref(w.handles[i])].payload|
  {
    w.heap.blocks[Deref(w.handles[i])].payload[k]
  }

  /** With the corrected starting count, the owner's deallocation quarantines
      a block exactly when some handle still names it; the quarantined payload
      is untouched and the upstream resource is not called. Every handle keeps
      naming a block that exists. */
  lemma CorrectedDeallocateQuarantinesIffReferenced(w: World, p: Addr)
    requires Tracks(w) && w.heap.variant == Corrected && p in w.heap.blocks && p !in w.heap.quarantined
    ensures var r := Deallocate(w, p);
      && Tracks(r)
      && (p in r.heap.blocks <==> References(w.handles, p) > 0)
      && (p in r.heap.blocks ==>
            && r.heap.blocks[p].payload == w.heap.blocks[p].payload
            && r.heap.upstream == w.heap.upstream)
  {
  }

  /** As written (count starting at zero, quarantine only above one), a block
      named by exactly one handle is poisoned and given back upstream by its
      owner's deallocation while that handle still names it. */
  lemma AsWrittenSingleHandleReleases(w: World, p: Addr)
    requires Tracks(w) && w.heap.variant == AsWritten && p in w.heap.blocks && p !in w.heap.quarantined
    requires References(w.handles, p) == 1
    ensures var r := Deallocate(w, p);
      && p !in r.heap.blocks
      && Names(p) in r.handles
      && r.heap.upstream.calls[|r.heap.upstream.calls| - 1].DeallocateCall?
      && r.heap.upstream.calls[|r.heap.upstream.calls| - 1].payload == Fill(w.heap.blocks[p].payload, PoisonByte)
  {
    assert Names(p) in multiset(w.handles);
  }

  /** With the corrected starting count no header count ever goes negative,
      and a block its owner still holds has a count of at least one. */
  lemma CorrectedCountsNonNegative(w: World, p: Addr)
    requires Tracks(w) && w.heap.variant == Corrected && p in w.heap.blocks
    ensures w.heap.blocks[p].count >= References(w.handles, p) >= 0
    ensures p !in w.heap.quarantined ==> w.heap.blocks[p].count >= 1
  {
  }

  /** As written, the count of a block can go below zero once handles are
      given back: two handles make the owner's deallocation quarantine the
      block at count 1, and dropping both handles leaves it at -1. */
  lemma AsWrittenCountGoesNegative(w: World, p: Addr)
    requires Tracks(w) && w.heap.variant == AsWritten && p in w.heap.blocks && p !in w.heap.quarantined
    requires w.handles == [Names(p), Names(p)]
    ensures p in Deallocate(w, p).heap.blocks
    ensures Drop(Drop(Deallocate(w, p), 0), 0).heap.blocks[p].count == -1
  {
    assert References(w.handles, p) == 2;
    var q := Deallocate(w, p);
    assert Drop(q, 0).handles == [Names(p)];
  }

  /** One operation on handles. */
  datatype HandleOp =
    | DefaultOp
    | AdoptOp(p: Addr)
    | CopyOp(i: nat)
    | CopyAssignOp(dst: nat, src: nat)
    | MoveOp(i: nat)
    | MoveAssignOp(dst: nat, src: nat)
    | DropOp(i: nat)

  /** The operation names handles that exist, and a new handle is made only
      for a block its owner still holds. */
  predicate Applicable(w: World, op: HandleOp)
  {
    && Tracks(w)
    && match op
       case DefaultOp => true
       case AdoptOp(p) => p in w.heap.blocks && p !in w.heap.quarantined
       case CopyOp(i) => i < |w.handles|
       case CopyAssignOp(dst, src) => dst < |w.handles| && src < |w.handles|
       case MoveOp(i) => i < |w.handles|
       case MoveAssignOp(dst, src) => dst < |w.handles| && src < |w.handles|
       case DropOp(i) => i < |w.handles|
  }

  function ApplyOp(w: World, op: HandleOp): (r: World)
    requires Applicable(w, op)
    ensures Tracks(r) && OnlyCountsChange(w.heap, r.heap) && r.heap.quarantined == w.heap.quarantined
  {
    match op
    case DefaultOp => Default(w)
    case AdoptOp(p) => Adopt(w, p)
    case CopyOp(i) => Copy(w, i)
    case CopyAssignOp(dst, src) => CopyAssign(w, dst, src)
    case MoveOp(i) => Move(w, i)
    case MoveAssignOp(dst, src) => MoveAssign(w, dst, src)
    case DropOp(i) => Drop(w, i)
  }

  /** Handles coming and going, `None` as soon as an operation is not
      applicable. However many, they only move header counts: every block
      stays held with its payload as it was, and the upstream resource is
      never called. */
  function RunHandles(w: World, ops: seq<HandleOp>): (r: Option<World>)
    requires Tracks(w)
    ensures r.Some? ==> Tracks(r.value) && OnlyCountsChange(w.heap, r.value.heap) && r.value.heap.quarantined == w.heap.quarantined
    decreases |ops|
  {
    if ops == [] then Some(w)
    else if Applicable(w, ops[0]) then RunHandles(ApplyOp(w, ops[0]), ops[1..])
    else None
  }

  /** A quarantined block stays unmodified and readable while handles come and
      go: with the corrected starting count, a block some handle names is
      quarantined by its owner's deallocation, and after any run of handle
      operations it is still held with its original payload, the upstream
      resource untouched. */
  lemma PendingReleasePayloadSurvives(w: World, p: Addr, ops: seq<HandleOp>)
    requires Tracks(w) && w.heap.variant == Corrected && p in w.heap.blocks && p !in w.heap.quarantined
    requires References(w.handles, p) > 0
    ensures p in Deallocate(w, p).heap.blocks && Tracks(Deallocate(w, p))
    ensures RunHandles(Deallocate(w, p), ops).Some? ==>
      var r := RunHandles(Deallocate(w, p), ops).value;
      && p in r.heap.blocks
      && r.heap.blocks[p].payload == w.heap.blocks[p].payload
      && r.heap.upstream == w.heap.upstream
  {
    CorrectedDeallocateQuarantinesIffReferenced(w, p);
  }
}

=== FILE: scenarios.dfy ===
/**
  The scenarios of the component's test driver and of its intended use,
  stated over every upstream resource and every answer it may give.
 */
module Scenarios {
  import opened Memory
  import opened Layout
  import PA = PoisonAllocator
  import Upstream
  import opened RawPtr

  lemma MaxAlignIsPowerOfTwo()
    ensures IsPowerOfTwo(MaxAlign)
  {
    assert IsPowerOfTwo(1) && IsPowerOfTwo(2) && IsPowerOfTwo(4) && IsPowerOfTwo(8);
  }

  /** The test's 256-byte allocation, from whatever state its allocator is
      in (the test has already made a zero-byte allocation): the buffer is
      non-null and can be deallocated, which releases it and leaves the
      upstream resource with the extents it had before. The buffer sits
      `sizeof(int)` past 16-aligned storage, so it is not 16-aligned. */
  lemma Allocate256(a: PA.Allocator, g: Upstream.Grant)
    requires PA.Valid(a) && a.variant == AsWritten && g.Granted?
    requires PA.GrantFits(a, g, 256, MaxAlign)
    ensures assert IsPowerOfTwo(MaxAlign) by { MaxAlignIsPowerOfTwo(); }
      var r := PA.Allocate(a, 256, MaxAlign, g);
      && r.Allocated?
      && r.address != Null
      && r.address % MaxAlign == IntSize
      && PA.Owns(r.next, r.address, 256, MaxAlign)
      && PA.Deallocate(r.next, r.address, 256, MaxAlign).upstream.live == a.upstream.live
  {
    MaxAlignIsPowerOfTwo();
    PA.AllocateDeallocateRoundTrip(a, 256, MaxAlign, g);
    AsWrittenMisaligns(g.storage, MaxAlign);
  }

  /** A zero-byte request still reaches the upstream resource (for the header)
      and, when granted, yields a non-null address, whereas the test driver
      expects null. */
  lemma ZeroByteAllocationIsNotNull(installed: Upstream.Resource, g: Upstream.Grant)
    requires Upstream.Consistent(installed) && g.Granted?
    requires PA.GrantFits(PA.Default(installed), g, 0, MaxAlign)
    ensures assert IsPowerOfTwo(MaxAlign) by { MaxAlignIsPowerOfTwo(); }
      var r := PA.Allocate(PA.Default(installed), 0, MaxAlign, g);
      && r.Allocated? && r.address != Null
      && r.next.upstream.calls[|r.next.upstream.calls| - 1] == Upstream.AllocateCall(g.storage, Upstream.Extent(IntSize, MaxAlign))
  {
    MaxAlignIsPowerOfTwo();
  }

  /** The 256-byte buffer of the test, named by one handle, is poisoned and
      handed back upstream by its owner's deallocation while the handle still
      names it. */
  lemma AsWrittenHandleDangles(installed: Upstream.Resource, g: Upstream.Grant)
    requires Upstream.Consistent(installed) && g.Granted?
    requires PA.GrantFits(PA.Default(installed), g, 256, MaxAlign)
    ensures assert IsPowerOfTwo(MaxAlign) by { MaxAlignIsPowerOfTwo(); }
      var w1 := RawPtr.Allocate(Start(PA.Default(installed)), 256, MaxAlign, g);
      var p := PayloadAddress(AsWritten, g.storage, MaxAlign);
      && p in w1.heap.blocks
      && var w2 := Adopt(w1, p);
      var w3 := RawPtr.Deallocate(w2, p);
      && p !in w3.heap.blocks
      && Deref(w3.handles[0]) == p
      && w3.heap.upstream.live == installed.live
  {
    MaxAlignIsPowerOfTwo();
    var w1 := RawPtr.Allocate(Start(PA.Default(installed)), 256, MaxAlign, g);
    var p := PayloadAddress(AsWritten, g.storage, MaxAlign);
    var w2 := Adopt(w1, p);
    assert w2.handles == [Names(p)];
    AsWrittenSingleHandleReleases(w2, p);
  }

  /** Allocate 64 bytes at alignment 8 with the corrected layout, take a handle
      and a copy of it, deallocate: the block is quarantined, both handles read
      the original bytes, and dropping both leaves the block held with a count
      of zero. Nothing gives it back upstream. */
  lemma TwoHandleScenario(upstream: Upstream.Resource, g: Upstream.Grant)
    requires Upstream.Consistent(upstream) && g.Granted?
    requires PA.GrantFits(PA.Construct(Corrected, upstream), g, 64, 8)
    ensures
      assert IsPowerOfTwo(8) by { assert IsPowerOfTwo(1) && IsPowerOfTwo(2) && IsPowerOfTwo(4); }
      var w1 := RawPtr.Allocate(Start(PA.Construct(Corrected, upstream)), 64, 8, g);
      var p := PayloadAddress(Corrected, g.storage, 8);
      && p in w1.heap.blocks
      && var w3 := Copy(Adopt(w1, p), 0);
      var w4 := RawPtr.Deallocate(w3, p);
      && Tracks(w4) && p in w4.heap.blocks && |w4.handles| == 2
      && (forall k | 0 <= k < 64 :: Load(w4, 1, k) == g.contents[k])
      && var w5 := Drop(w4, 0);
      && (forall k | 0 <= k < 64 :: Load(w5, 0, k) == g.contents[k])
      && var w6 := Drop(w5, 0);
      && p in w6.heap.blocks && w6.heap.blocks[p].count == 0
      && w6.heap.upstream == w1.heap.upstream
  {
    assert IsPowerOfTwo(8) by { assert IsPowerOfTwo(1) && IsPowerOfTwo(2) && IsPowerOfTwo(4); }
    var w1 := RawPtr.Allocate(Start(PA.Construct(Corrected, upstream)), 64, 8, g);
    var p := PayloadAddress(Corrected, g.storage, 8);
    assert p in w1.heap.blocks && w1.heap.blocks[p].payload == g.contents && w1.heap.blocks[p].count == 1;
    TwoHandlesOnFreshBlock(w1, p);
  }

  /** The handle half of the scenario above, for any fresh corrected block
      that no handle names yet. */
  lemma TwoHandlesOnFreshBlock(w1: World, p: Addr)
    requires Tracks(w1) && w1.heap.variant == Corrected && w1.handles == []
    requires p in w1.heap.blocks && p !in w1.heap.quarantined
    ensures var w3 := Copy(Adopt(w1, p), 0);
      var w4 := RawPtr.Deallocate(w3, p);
      && Tracks(w4) && p in w4.heap.blocks && |w4.handles| == 2
      && w4.handles[1] == Names(p)
      && w4.heap.blocks[p].payload == w1.heap.blocks[p].payload
      && var w5 := Drop(w4, 0);
      && w5.handles == [Names(p)]
      && w5.heap.blocks[p].payload == w1.heap.blocks[p].payload
      && var w6 := Drop(w5, 0);
      && p in w6.heap.blocks && w6.heap.blocks[p].count == 0
      && w6.heap.upstream == w1.heap.upstream
  {
    assert w1.heap.blocks[p].count == 1;
    var w2 := Adopt(w1, p);
    var w3 := Copy(w2, 0);
    assert w3.handles == [Names(p), Names(p)];
    assert w3.heap.blocks[p].count == 3;
    CorrectedDeallocateQuarantinesIffReferenced(w3, p);
    var w4 := RawPtr.Deallocate(w3, p);
    assert w4.heap.blocks[p].count == 2;
    var w5 := Drop(w4, 0);
    assert w5.handles == [Names(p)];
    assert w5.heap.blocks[p].count == 1;
  }
}

=== FILE: upstream.dfy ===
/**
  The upstream memory resource a PoisonAllocator wraps (`bslma`, a library
  outside this model), reduced to what the allocator relies on: it hands out
  disjoint, suitably aligned extents, takes back exactly the pointer, size and
  alignment it handed out, and each call can be observed. The resource keeps
  the extents currently handed out (`live`) and the log of calls it received.
 */
module Upstream {
  import opened Memory
  import opened Wrappers

  /** Identity of a memory resource, what `get_allocator` gives back. */
  type ResourceId = nat

  datatype Extent = Extent(size: nat, alignment: nat)

  /** One call the resource received. A deallocation also records what the
      block held at that moment: the header count and the payload bytes. */
  datatype Call =
    | AllocateCall(storage: Addr, extent: Extent)
    | DeallocateCall(storage: Addr, extent: Extent, header: int, payload: seq<byte>)

  datatype Resource = Resource(id: ResourceId, live: map<Addr, Extent>, calls: seq<Call>)

  /** The resource's answer to an allocation request: storage and its
      indeterminate initial payload bytes, or exhaustion (`bad_alloc`). */
  datatype Grant = Exhausted | Granted(storage: Addr, contents: seq<byte>)

  /** The effect of one call on the set of extents handed out; `None` when the
      call is not matched (a second allocation of a live address, or a
      deallocation whose pointer, size or alignment was never handed out). */
  function Apply(open: map<Addr, Extent>, c: Call): (r: Option<map<Addr, Extent>>)
  {
    match c
    case AllocateCall(s, e) => if s in open then None else Some(open[s := e])
    case DeallocateCall(s, e, _, _) => if s in open && open[s] == e then Some(open - {s}) else None
  }

  /** Replays a call log from an empty resource. */
  function Replay(calls: seq<Call>): (r: Option<map<Addr, Extent>>)
    decreases |calls|
  {
    if calls == [] then Some(map[])
    else
      match Replay(calls[..|calls| - 1])
      case None => None
      case Some(open) => Apply(open, calls[|calls| - 1])
  }

  /** Every deallocation the resource received matched an earlier allocation
      in pointer, size and alignment, and what is live is what is left over. */
  predicate Consistent(r: Resource)
  {
    Replay(r.calls) == Some(r.live)
  }

  lemma ReplayExtend(calls: seq<Call>, c: Call)
    ensures Replay(calls + [c]) == (match Replay(calls) case None => None case Some(open) => Apply(open, c))
  {
    assert (calls + [c])[..|calls|] == calls;
  }

  /** What the resource promises of a granted extent: non-null, aligned, and
      overlapping nothing it has handed out. */
  predicate Fits(r: Resource, storage: Addr, size: nat, alignment: nat)
  {
    && storage != Null
    && alignment > 0
    && storage % alignment == 0
    && storage !in r.live
    && forall s | s in r.live :: storage + size <= s || s + r.live[s].size <= storage
  }

  /** `resource().allocate(size, alignment)` answered with `storage`. */
  function Allocate(r: Resource, storage: Addr, extent: Extent): (r': Resource)
    requires storage !in r.live
    ensures r'.id == r.id
    ensures r'.live == r.live[storage := extent]
    ensures r'.calls == r.calls + [AllocateCall(storage, extent)]
    ensures Consistent(r) ==> Consistent(r')
  {
    ReplayExtend(r.calls, AllocateCall(storage, extent));
    Resource(r.id, r.live[storage := extent], r.calls + [AllocateCall(storage, extent)])
  }

  /** `resource().deallocate(storage, size, alignment)`; the caller must hand
      back an extent exactly as it was handed out. */
  function Deallocate(r: Resource, storage: Addr, extent: Extent, header: int, payload: seq<byte>): (r': Resource)
    requires storage in r.live && r.live[storage] == extent
    ensures r'.id == r.id
    ensures r'.live == r.live - {storage}
    ensures r'.calls == r.calls + [DeallocateCall(storage, extent, header, payload)]
    ensures Consistent(r) ==> Consistent(r')
  {
    ReplayExtend(r.calls, DeallocateCall(storage, extent, header, payload));
    Resource(r.id, r.live - {storage}, r.calls + [DeallocateCall(storage, extent, header, payload)])
  }

  /** Number of allocation calls in the log that handed out `s`. */
  function Grants(calls: seq<Call>, s: Addr): (n: nat)
    decreases |calls|
  {
    if calls == [] then 0
    else
      var last := calls[|calls| - 1];
      Grants(calls[..|calls| - 1], s) + (if last.AllocateCall? && last.storage == s then 1 else 0)
  }

  /** Number of deallocation calls in the log that gave back `s`. */
  function Returns(calls: seq<Call>, s: Addr): (n: nat)
    decreases |calls|
  {
    if calls == [] then 0
    else
      var last := calls[|calls| - 1];
      Returns(calls[..|calls| - 1], s) + (if last.DeallocateCall? && last.storage == s then 1 else 0)
  }

  /** A consistent log is balanced address by address: every address was given
      back at most as often as it was handed out, and exactly as often unless
      it is live now. So no extent is ever returned twice. */
  lemma {:induction false} ReplayBalances(calls: seq<Call>, s: Addr)
    requires Replay(calls).Some?
    ensures Returns(calls, s) + (if s in Replay(calls).value then 1 else 0) == Grants(calls, s)
    decreases |calls|
  {
    if calls != [] {
      ReplayBalances(calls[..|calls| - 1], s);
    }
  }
}

=== FILE: wrappers.dfy ===
/** The conventional Some/None datatype, used for partial results. */
module Wrappers {

  datatype Option<+T> = None | Some(value: T)
}
